=== FILE: README.md ===
# Chess session relay and board logic — a Dafny model

This project models the logic of a small two-player chess app:

- **The session relay** (`server.js`). An in-memory map from game id to a session record
  holds the engine, the cached FEN, the number of joined players and the last-activity
  time. Five HTTP handlers act on it: join, status query, move, reset and undo. An hourly
  sweep removes sessions idle for more than an hour.
- **The board component** (`components/chessboard.tsx`). It maps a pressed cell to a
  square name in either orientation and flips the displayed board. It also shades the
  cells, looks up piece glyphs and runs the select-then-move press machine.
- **The local game screen** (`app/chess.tsx`). It classifies the engine's flags into a
  status line and a result banner. It also updates the screen state after a move, an undo
  or a reset, and numbers the move list.
- **The FEN register** (`server/store/fenStore.ts`). This is one mutable string with a
  fixed initial value, read and written by two small routes.

## How the model is built

- **The engine.** The chess rules engine (chess.js) is not modelled. A game is the
  sequence of plies applied since the start position (`ChessEngine.Ply`). The engine's
  answers are function fields of an `Engine` value that every operation takes as a
  parameter: whether it accepts a move (`attempt`), the FEN of a position (`fenAfter`)
  and its terminal-state flags (`flagsAfter`).
- **Facts about the engine that the model assumes:**
  - An empty history is the standard starting position with no flags set. This is how
    `new Chess()` and `reset()` leave the engine (`ChessEngine.Fen`, `ChessEngine.FlagsOf`).
  - White moves first, and every applied move passes the turn.
  - `undo()` pops the last ply, or returns nothing when there is none.
  - `chess.board()` lists the ranks from 8 down to 1, and each rank from file a to file h:
    row 0 is rank 8 and column 0 is file a (`Chessboard.BoardOf`).
- **Handlers are pure functions.** Each server handler maps the store, the request fields
  and the current time `now` to an `Outcome`. The outcome holds the new store, the JSON
  reply, and the `updatePlayers` count emitted to the game's room (if any). `now` stands
  for `Date.now()`.
- **Request fields.** Each field of a request body is an `Option<string>`. JavaScript
  truthiness treats a missing field and `""` alike (`Common.Truthy`).
- **The store invariant.** `SessionServer.Valid` says every session has one or two players
  and caches exactly the engine's FEN of its history. Every handler and the sweep preserve
  it, and so does every sequence of requests and ticks (`RunPreservesValid`).
- **A stale value in the local screen.** In `app/chess.tsx`, `handleMove` and `undoMove`
  call `checkGameStatus()` while `currentTurn` still holds its pre-move value. The
  `useEffect` on `fen` then re-runs it with the new value, but only if the FEN changed.
  `LocalGame.Refresh` models exactly this, and the contracts of `HandleMove` and
  `UndoMove` state which turn the status line ends up naming.
- **Details of the code that the model keeps, though a reader might expect otherwise:**
  - A session stores 1 or 2 players, never 0.
  - Reset and undo update the activity time, as well as join and move.
  - Reset and undo need only an existing game, not two players.
  - Only joins emit a push event (`updatePlayers`). Moves, resets and undos broadcast
    nothing.
  - An illegal move carries the engine's message (`details`) only when the engine throws.
  - The promotion default `'q'` applies only when the field is absent.
- **The result banner is never cleared by undo.** `checkGameStatus` only ever sets
  `gameResult`, and only `resetGame` clears it. So after undoing out of a checkmate, the
  banner still shows the old result (`CheckGameStatus`, `UndoMove`). A mate or draw
  reached by a move or by an undo replaces the banner with its own text (`Banner`).

## Model

| member | source | states |
|---|---|---|
| ChessEngine.Turn | server.js:123 | with no move made, white is to move (that each applied ply hands the move over is `UndoAfterApply`) |
| ChessEngine.Undo | server.js:212-214 | undo yields nothing exactly when the history is empty; otherwise it drops exactly the last ply |
| ChessEngine.UndoAfterApply | server.js:150-222 | undoing a just-applied ply gives back the previous history, and the side to move returns to the one before the move |
| ChessEngine.SanAfterApply | server.js:159 | applying a ply extends the listed history by that ply's SAN only |
| SessionServer.JoinGame | server.js:50-106 | a falsy id is refused with 400 and changes nothing; a reply is an error exactly when the store is unchanged; only the joined id's entry changes, and it keeps its history and FEN; a successful reply reports the stored FEN and player count, says "ready" iff two players, and announces that count |
| SessionServer.GetGame | server.js:109-129 | the store is unchanged and nothing is announced; 404 iff the id is absent; otherwise the reply carries the stored FEN, player count, history, turn and flags, with status "ready" iff players == 2 and "waiting" otherwise |
| SessionServer.SubmitMove | server.js:132-172 | errors are checked in order: missing fields 400, unknown game 404, fewer than two players 400 "Waiting for opponent"; every error leaves the store unchanged; success iff the engine accepts, and then history grows by exactly that ply, FEN becomes the engine's, players are kept, lastActive becomes now, nothing else changes, and the turn passes; otherwise 400 "Invalid move", which never carries a `message` and carries `details` exactly when the engine threw, set to the engine's error message |
| SessionServer.ResetGame | server.js:175-197 | 400 for a falsy id and 404 for an unknown one, neither changing the store; success iff the game exists, whatever its player count: empty history, start FEN, same players, lastActive now, nothing else changes, reply at the start position with white to move |
| SessionServer.UndoMove | server.js:200-227 | 400 for a falsy id and 404 for an unknown one; "No move to undo" iff the history is empty, store unchanged; otherwise exactly the last ply is removed, FEN follows the engine, players are kept, lastActive is now, nothing else changes, and the turn goes back |
| SessionProperties.AbsentPromotionIsQueen | server.js:133 | a move posted without a promotion is handled exactly like one asking for "q" |
| SessionProperties.ExpiredBoundary | server.js:234 | a session idle for exactly 3 600 000 ms survives the sweep; one idle 3 600 001 ms expires |
| SessionProperties.ExpiredStays | server.js:234 | once a session is expired at some time it stays expired at every later time |
| SessionServer.Sweep | server.js:230-238 | a game survives iff it was present and not idle for more than 3 600 000 ms, and survivors are unchanged |
| SessionServer.SweepEntries | server.js:230-238 | deleting expired entries one by one while walking the map removes exactly the expired games, leaves the others intact, and ends with the same map as `Sweep` |
| SessionProperties.JoinCreatesWaitingGame | server.js:57-77 | a first join inserts exactly one record (no history, start FEN, 1 player, lastActive now), replies "waiting" with 1 player, and announces 1 |
| SessionProperties.JoinAdmitsSecondPlayer | server.js:80-96 | a join of a one-player game sets players to 2 and lastActive to now, keeps the rest, and replies "ready" with the stored FEN |
| SessionProperties.JoinRefusesThirdPlayer | server.js:97-104 | a join of a two-player game is refused with "Game is full" and changes nothing |
| SessionProperties.JoinThenRoomAgree | server.js:38-41 | a socket entering the room after a successful join is told the same player count the join announced |
| SessionProperties.JoinPreservesValid | server.js:57-104 | joins keep every session at one or two players with a FEN consistent with its history |
| SessionProperties.MovePreservesValid | server.js:149-171 | moves keep the store invariant |
| SessionProperties.ResetPreservesValid | server.js:186-189 | resets keep the store invariant |
| SessionProperties.UndoPreservesValid | server.js:211-216 | undos keep the store invariant |
| SessionProperties.MoveThenUndoRestores | server.js:150-222 | a successful move followed by an undo restores the store except for that game's lastActive, and the undo reply shows the pre-move FEN, history and turn |
| SessionProperties.QueryIsReadOnly | server.js:116-128 | repeating a status query gives the same reply, as the first changed nothing |
| SessionProperties.SweepPreservesValid | server.js:230-238 | the sweep keeps the store invariant |
| SessionProperties.SweepIdempotent | server.js:232-237 | a second sweep at the same time removes nothing more |
| SessionProperties.LaterSweepSubsumes | server.js:234 | sweeping at t1 and then at a later t2 is the same as sweeping at t2 alone |
| SessionProperties.SweptGameIsNotFound | server.js:112-113 | after the sweep, an expired game is answered with 404 by the status query and by undo |
| SessionProperties.ApplyPreservesValid | server.js:50-238 | any single request or sweep tick keeps the store invariant |
| SessionProperties.RunPreservesValid | server.js:50-238 | any sequence of requests and ticks keeps the invariant, so no session ever holds fewer than 1 or more than 2 players |
| SessionProperties.FreshGameScenario | server.js:57-147 | on an empty store: the first join of "g1" waits at the start FEN, a move before the second join gets "Waiting for opponent", and the second join is ready at the start FEN |
| LocalGame.CheckGameStatus | app/chess.tsx:41-74 | the status line is the text of the verdict the flags call for; on mate the banner becomes "<winner> won by checkmate", on a draw "Draw by …" with the reason's text; a result is present iff one was before or the position is mate or a draw; without mate or draw the previous result is kept, never cleared |
| LocalGame.Classify | app/chess.tsx:45-68 | checkmate iff the mate flag, and then the winner is not the side to move; draw iff not mate and the draw flag, with the reason chosen in the order stalemate, repetition, insufficient material, and the 50-move rule as fallback (each as an iff); check iff neither mate nor draw and check, naming the shown turn |
| LocalGame.ResultText | app/chess.tsx:48-62 | the banner text of each verdict: "<winner> won by checkmate", "Draw by stalemate", "Draw by threefold repetition", "Draw by insufficient material", "Draw by 50-move rule": a banner exactly for mate and draw, every draw's text beginning "Draw by ", and none for check or an ordinary turn |
| LocalGame.DecodeStatus | app/chess.tsx:47-67 | a decoded verdict always has exactly the decoded text as its status line |
| LocalGame.DecodeStatusText | app/chess.tsx:47-67 | every verdict's status line decodes back to that verdict, so no two verdicts share a line |
| LocalGame.StatusIdentifiesVerdict | app/chess.tsx:41-70 | the line set by checkGameStatus decodes to exactly the verdict of the flags |
| LocalGame.Recheck | app/chess.tsx:18-20 | the effect on `fen` keeps the engine history, FEN, list and turn, sets the status line of the flags' verdict with the shown turn, and sets the banner as checkGameStatus does |
| LocalGame.Opened | app/chess.tsx:9-20 | after mounting, the screen is at the start position with an empty move list, white to move, status "white's turn" and no result, and the engine, FEN, list and turn agree (the base case of the screen invariant) |
| LocalGame.Refresh | app/chess.tsx:30-34 | after the engine reaches history h, the FEN, list and turn agree with the engine; the status names the new turn only if the FEN changed, else the stale one; the banner becomes the new position's result text on mate or draw and otherwise stays as it was |
| LocalGame.HandleMove | app/chess.tsx:22-39 | a declined or throwing move leaves the whole screen unchanged; an accepted move extends the engine history by exactly that ply, resyncs FEN, list and turn, and sets the status as above; a mating or drawing move puts up its result text |
| LocalGame.UndoMove | app/chess.tsx:85-93 | with no move, nothing changes; otherwise exactly the last ply is dropped and FEN, list and turn resync; undoing into a drawn position puts up that draw's text, and the banner is never cleared |
| LocalGame.ResetGame | app/chess.tsx:76-83 | afterwards the history is empty, the FEN is the start FEN, white is to move, the status is "white's turn" and there is no result |
| LocalGame.MatingMoveNamesMover | app/chess.tsx:30-34 | a mating move makes the banner "<mover> won by checkmate", naming the player who moved |
| LocalGame.UndoIntoRepetitionShowsDraw | app/chess.tsx:85-91 | taking a move back into a threefold repetition makes the banner "Draw by threefold repetition" |
| LocalGame.MoveThenUndo | app/chess.tsx:22-93 | an accepted move followed by an undo restores the engine history, FEN, move list and turn |
| LocalGame.UndoEnabledIffUndoable | app/chess.tsx:112 | on a synced screen, the Undo button is enabled iff undo would change the engine history |
| LocalGame.MoveLabel | app/chess.tsx:127 | the prefix is non-empty iff the index is even, and then it is a decimal numeral without a leading zero, reading floor(i/2)+1, followed by a dot |
| LocalGame.HistoryLine | app/chess.tsx:127 | a move-list line ends with the move's SAN after one space; a black move's line is just the space and the SAN; a white move's starts with its number label |
| LocalGame.LabelsDistinct | app/chess.tsx:127 | two different white-move entries never carry the same number |
| Numerals.Show | app/chess.tsx:127 | a printed number is a non-empty string of digits without a leading zero |
| Numerals.ReadShow | app/chess.tsx:127 | reading a printed number gives the number back |
| Numerals.ShowInjective | app/chess.tsx:127 | different numbers print differently |
| Chessboard.Spelled | components/chessboard.tsx:41-42 | the letter at each position of the four file and rank strings |
| Chessboard.SquareAt | components/chessboard.tsx:39-43 | a cell names a valid square; unflipped, column c is file c and row r is rank 8-r; flipped, column c is file 7-c and row r is rank r+1 |
| Chessboard.CellOf | components/chessboard.tsx:41-43 | every valid square has a display cell in each orientation |
| Chessboard.SquareByCoordinates | components/chessboard.tsx:43 | a square name is determined by its file and rank |
| Chessboard.CellOfSquareAt | components/chessboard.tsx:41-43 | the cell of the square a cell names is that cell |
| Chessboard.SquareAtCellOf | components/chessboard.tsx:41-43 | the square named by the cell of a square is that square, so the map is onto all 64 squares |
| Chessboard.SquareAtInjective | components/chessboard.tsx:41-43 | distinct cells name distinct squares |
| Chessboard.FlippedMirrors | components/chessboard.tsx:41-43 | flipped (r, c) names the same square as unflipped (7-r, 7-c) |
| Chessboard.Display | components/chessboard.tsx:37 | unflipped the board is shown as it is; flipped, display row i is board row n-1-i reversed |
| Chessboard.BoardOf | components/chessboard.tsx:34 | an 8 by 8 grid in which the square with file f and rank r sits at row 7-r, column f |
| Chessboard.Reverse | components/chessboard.tsx:37 | reversal keeps the length and puts element n-1-i at i |
| Chessboard.DisplayFlipTwice | components/chessboard.tsx:37 | flipping the displayed board twice gives back the board |
| Chessboard.DisplayShowsPressedSquare | components/chessboard.tsx:34-43 | in both orientations, the piece drawn at a cell is the piece on the square a press of that cell names |
| Chessboard.IsDark | components/chessboard.tsx:83 | an unflipped cell is dark iff its square's file and rank sum to an even number, the colour of a1 |
| Chessboard.DarkCellsAreDarkSquares | components/chessboard.tsx:83 | a cell is dark iff its square has the colour of a1, in either orientation |
| Chessboard.GlyphKeyAsWritten | components/chessboard.tsx:107 | the key as written starts with the upper-case type letter; a white key is that letter alone, and a black key is that letter followed by `b` |
| Chessboard.BlackPiecesHaveNoGlyph | components/chessboard.tsx:107 | under the key as written, no black piece has an entry in PIECES |
| Chessboard.GlyphKey | components/chessboard.tsx:107 | the corrected key: every piece kind of either colour has an entry in PIECES |
| Chessboard.CellGlyph | components/chessboard.tsx:98-108 | an empty cell draws nothing; with the intended key, every occupied cell gets a glyph |
| Chessboard.CorrectionOnlyTouchesBlack | components/chessboard.tsx:107 | the corrected key equals the key as written for every white piece, and is the lower-case type letter itself for a black piece |
| Chessboard.GlyphsDistinguishPieces | components/chessboard.tsx:6-19 | with the intended key, every piece has a glyph and different pieces have different glyphs |
| Chessboard.HandlePress | components/chessboard.tsx:39-66 | with nothing selected, a press selects the pressed square iff it holds a piece of the side to move, and never moves; with a selection, a press always clears it, and reports (selected, pressed) iff the pressed square differs |
| Chessboard.PressKeepsSelectionSound | components/chessboard.tsx:55-65 | a selection only ever holds a square with a piece of the side to move |
| Chessboard.TwoPressesMove | components/chessboard.tsx:45-65 | pressing an own piece and then another cell calls onMove once, with the two squares, and clears the selection |
| Chessboard.IsSelected | components/chessboard.tsx:68-76 | a cell is highlighted only when a valid square is selected and the cell is where that square is displayed |
| Chessboard.HighlightIsUnique | components/chessboard.tsx:68-76 | a selected square is highlighted in exactly one cell: the cell where it is displayed |
| FenStore.SetFen | server/store/fenStore.ts:5-7 | after a write, the register holds exactly the written string |
| FenStore.LastWriteWins | server/store/fenStore.ts:5-7 | of two writes the last wins, whatever the first wrote |
| FenStore.InitialIsStartPosition | server/store/fenStore.ts:1 | a fresh register holds the standard starting FEN |
| FenStore.SendInfo | server/src/app/api/SendInfo/route.js:4-23 | a malformed body is refused with the register untouched; a truthy fen is stored; a missing or empty fen leaves the register as it was; every well-formed body gets the message "Player One data received", its `fen` field echoed back as `data`, and the register after the update |
| FenStore.PostThenGet | server/src/app/api/SendInfo/route.js:9-11 | after posting a non-empty FEN, GetInfo reports that FEN |
| FenStore.EmptyPostKeepsInfo | server/src/app/api/SendInfo/route.js:9-11 | posting an empty or missing FEN leaves what GetInfo reports unchanged |

## Findings

| source | as written | input that shows it | evidently intended | confidence | as-written member | corrected member |
|---|---|---|---|---|---|---|
| components/chessboard.tsx:107 | the glyph key is the upper-case type letter followed by the colour letter `b` for a black piece, e.g. `Pb` | any black piece, e.g. the black pawn on e7 of the start position: key `Pb` has no entry in PIECES, so the cell renders no glyph | black pieces looked up under their lower-case type letter (`p`), as PIECES is laid out, with white keys unchanged (`Chessboard.CorrectionOnlyTouchesBlack`) | high (not executed) | Chessboard.GlyphKeyAsWritten | Chessboard.GlyphKey |

`Chessboard.GlyphKeyAsWritten` is the key as written, and `Chessboard.BlackPiecesHaveNoGlyph`
proves that no black piece has a glyph under it. `Chessboard.GlyphKey` is the corrected key.
`Chessboard.CorrectionOnlyTouchesBlack` proves that it agrees with the key as written on
white pieces and is the lower-case type letter on black ones. `Chessboard.CellGlyph` uses
it, and `Chessboard.GlyphsDistinguishPieces` proves the lookup total and injective under it.

## Left out

- Chess rules (chess.js) are not modelled: move legality, FEN serialisation and the
  check, mate and draw detection. They are function fields of `ChessEngine.Engine`.
- The Socket.IO rooms, the connection and disconnect handlers, and all console logging
  are network I/O or diagnostics. Only the `updatePlayers` counts are kept: the one
  emitted on join (`Outcome.announced`) and the one emitted on a socket `joinGame` event
  (`RoomAnnouncement`).
- Express and Next.js plumbing is left out: CORS, JSON parsing, `server.listen` and
  HTTP status handling beyond the status code. `Date.now()` is the parameter `now`.
  The `setInterval` timer is reduced to one sweep step (`Tick`).
- Request bodies whose fields are not strings are left out, for example a numeric game
  id or `promotion: null`. JavaScript's handling of such values is not modelled.
- Concurrency is left out. The server handles one request at a time on one event loop,
  so each handler is modelled as one atomic step.
- The React rendering, styles, cell sizes and the `size` prop are left out. The board
  component's `new Chess(fen)` becomes parameters: the position and the side to move.
- FenStore.SendInfo: the reply's `data` field echoes only the body's `fen` field, not the
  whole body, because the other fields of a posted object are not modelled.
- FenStore.GetFen has no contract of its own. It is a pure read, so leaving the register
  unchanged (and being idempotent) holds by construction.
- app/index.tsx (GPS, compass and bearing maths), app/utils/exerciseDetection.ts
  (camera and pose estimation), app/_layout.tsx and tailwind.config.js are not part of
  this model. They are floating-point, sensor or styling code outside the relay and the
  board logic.

=== FILE: chess_engine.dfy ===
/** The chess rules engine (chess.js) as seen by its callers.

    The engine's rules are not modelled: a game is the sequence of plies applied since
    the start position, and the engine's answers (whether a move is accepted, the FEN of
    a position, the terminal-state flags) are function fields of an `Engine` value that
    every operation takes as a parameter. */
module ChessEngine {
  import opened Common

  /** The standard starting position, as `new Chess()` and `reset()` leave the engine. */
  const StartFen: string := "rnbqkbnr/pppppppp/8/8/8/8/PPPPPPPP/RNBQKBNR w KQkq - 0 1"

  /** The argument of `chess.move({ from, to, promotion })`. */
  datatype MoveRequest = MoveRequest(from: string, to: string, promotion: string)

  /** One applied move as the engine records it; `san` is what `history()` lists. */
  datatype Ply = Ply(request: MoveRequest, san: string)

  /** What `chess.move` does with a request: returns the move, returns a falsy value,
      or throws with a message. */
  datatype Attempt = Applied(ply: Ply) | Declined | Threw(message: string)

  /** The engine's predicates on the current position. */
  datatype Flags = Flags(
    isCheck: bool,
    isCheckmate: bool,
    isDraw: bool,
    isStalemate: bool,
    isThreefoldRepetition: bool,
    isInsufficientMaterial: bool,
    isGameOver: bool)

  /** None of the flags holds: the start position. */
  const Quiet: Flags := Flags(false, false, false, false, false, false, false)

  /** The engine's behaviour after a non-empty history. */
  datatype Engine = Engine(
    attempt: (seq<Ply>, MoveRequest) -> Attempt,
    fenAfter: seq<Ply> -> string,
    flagsAfter: seq<Ply> -> Flags)

  /** `chess.fen()` of the game whose history is `h`. */
  function Fen(e: Engine, h: seq<Ply>): string {
    if |h| == 0 then StartFen else e.fenAfter(h)
  }

  /** The flags of the game whose history is `h`. */
  function FlagsOf(e: Engine, h: seq<Ply>): Flags {
    if |h| == 0 then Quiet else e.flagsAfter(h)
  }

  /** `chess.turn()`: white moves first and every applied move passes the turn. */
  function Turn(h: seq<Ply>): (side: Color)
    ensures |h| == 0 ==> side == White
  {
    if |h| % 2 == 0 then White else Black
  }

  /** `chess.history()`: the SAN of every applied move, oldest first. */
  function San(h: seq<Ply>): seq<string> {
    seq(|h|, i requires 0 <= i < |h| => h[i].san)
  }

  /** `chess.undo()`: the history without its last move, or nothing when no move was made. */
  function Undo(h: seq<Ply>): (r: Option<seq<Ply>>)
    ensures r.None? <==> |h| == 0
    ensures r.Some? ==> |r.value| + 1 == |h| && h == r.value + [h[|h| - 1]]
  {
    if |h| == 0 then None else Some(h[..|h| - 1])
  }

  /** Undoing a move just applied gives back the history before it. */
  lemma UndoAfterApply(h: seq<Ply>, p: Ply)
    ensures Undo(h + [p]) == Some(h)
    ensures Turn(h + [p]) == Turn(h).Opponent()
  {
  }

  /** The listed history grows by the SAN of the applied move and nothing else. */
  lemma SanAfterApply(h: seq<Ply>, p: Ply)
    ensures San(h + [p]) == San(h) + [p.san]
  {
  }
}

=== FILE: chessboard.dfy ===
/** The board component of components/chessboard.tsx: the mapping from a displayed cell to
    a square name, the flipped display, the cell colouring, the piece glyphs and the
    two-press select-then-move interaction. */
module Chessboard {
  import opened Common

  /** The file and rank letters indexed by column and row, for each orientation. */
  const Files: string := "abcdefgh"
  const Ranks: string := "87654321"
  const FlippedFiles: string := "hgfedcba"
  const FlippedRanks: string := "12345678"

  /** A cell of the 8x8 grid the component renders. */
  predicate OnBoard(row: int, col: int) {
    0 <= row < 8 && 0 <= col < 8
  }

  /** A square name such as "e4": a file letter and a rank digit. */
  predicate IsSquare(sq: string) {
    |sq| == 2 && 'a' <= sq[0] <= 'h' && '1' <= sq[1] <= '8'
  }

  /** The file of a square, 0 for a through 7 for h. */
  function FileOf(sq: string): int
    requires IsSquare(sq)
  {
    sq[0] as int - 'a' as int
  }

  /** The rank of a square, 0 for rank 1 through 7 for rank 8. */
  function RankOf(sq: string): int
    requires IsSquare(sq)
  {
    sq[1] as int - '1' as int
  }

  /** The letters of the four lookup strings, spelled out by position. */
  lemma Spelled(i: int)
    requires 0 <= i < 8
    ensures Files[i] == ('a' as int + i) as char
    ensures FlippedFiles[i] == ('a' as int + 7 - i) as char
    ensures Ranks[i] == ('1' as int + 7 - i) as char
    ensures FlippedRanks[i] == ('1' as int + i) as char
  {
  }

  /** The square that `handleSquarePress` and `isSelected` compute for a displayed cell.
      Unflipped, row 0 is rank 8 and column 0 is file a; flipped, row 0 is rank 1 and
      column 0 is file h. */
  function SquareAt(row: int, col: int, flipped: bool): (sq: string)
    requires OnBoard(row, col)
    ensures IsSquare(sq)
    ensures FileOf(sq) == (if flipped then 7 - col else col)
    ensures RankOf(sq) == (if flipped then row else 7 - row)
  {
    Spelled(row);
    Spelled(col);
    var files := if flipped then FlippedFiles else Files;
    var ranks := if flipped then FlippedRanks else Ranks;
    [files[col], ranks[row]]
  }

  /** The cell where a square is displayed: the inverse of `SquareAt`. */
  function CellOf(sq: string, flipped: bool): (cell: (int, int))
    requires IsSquare(sq)
    ensures OnBoard(cell.0, cell.1)
  {
    if flipped then (RankOf(sq), 7 - FileOf(sq)) else (7 - RankOf(sq), FileOf(sq))
  }

  /** Two square names with the same file and rank are the same name. */
  lemma SquareByCoordinates(a: string, b: string)
    requires IsSquare(a) && IsSquare(b)
    requires FileOf(a) == FileOf(b) && RankOf(a) == RankOf(b)
    ensures a == b
  {
  }

  /** For each orientation the cell-to-square map is a bijection between the 64 cells and
      the 64 squares: `CellOf` undoes `SquareAt` and `SquareAt` undoes `CellOf`. */
  lemma CellOfSquareAt(row: int, col: int, flipped: bool)
    requires OnBoard(row, col)
    ensures CellOf(SquareAt(row, col, flipped), flipped) == (row, col)
  {
  }

  lemma SquareAtCellOf(sq: string, flipped: bool)
    requires IsSquare(sq)
    ensures SquareAt(CellOf(sq, flipped).0, CellOf(sq, flipped).1, flipped) == sq
  {
  }

  /** Distinct cells name distinct squares. */
  lemma SquareAtInjective(r1: int, c1: int, r2: int, c2: int, flipped: bool)
    requires OnBoard(r1, c1) && OnBoard(r2, c2)
    requires SquareAt(r1, c1, flipped) == SquareAt(r2, c2, flipped)
    ensures r1 == r2 && c1 == c2
  {
  }

  /** Flipped, a cell names the square the unflipped board shows at the mirrored cell. */
  lemma FlippedMirrors(row: int, col: int)
    requires OnBoard(row, col)
    ensures SquareAt(row, col, true) == SquareAt(7 - row, 7 - col, false)
  {
  }

  /** `[...xs].reverse()`. */
  function Reverse<T>(xs: seq<T>): (r: seq<T>)
    ensures |r| == |xs|
    ensures forall i :: 0 <= i < |xs| ==> r[i] == xs[|xs| - 1 - i]
  {
    if |xs| == 0 then [] else Reverse(xs[1..]) + [xs[0]]
  }

  /** `displayBoard`: unflipped, the board as the engine lists it; flipped, the rows in
      reverse order, each row reversed. */
  function Display<T>(board: seq<seq<T>>, flipped: bool): (shown: seq<seq<T>>)
    ensures |shown| == |board|
    ensures !flipped ==> shown == board
    ensures flipped ==> forall i :: 0 <= i < |board| ==> shown[i] == Reverse(board[|board| - 1 - i])
  {
    if flipped then
      var rows := Reverse(board);
      seq(|rows|, i requires 0 <= i < |rows| => Reverse(rows[i]))
    else
      board
  }

  /** Flipping the display twice gives back the board. */
  lemma DisplayFlipTwice<T>(board: seq<seq<T>>)
    ensures Display(Display(board, true), true) == board
  {
    var once := Display(board, true);
    var twice := Display(once, true);
    assert |twice| == |board|;
    forall i | 0 <= i < |board|
      ensures twice[i] == board[i]
    {
      assert twice[i] == Reverse(once[|board| - 1 - i]);
      assert once[|board| - 1 - i] == Reverse(board[i]);
    }
  }

  /** A piece as the engine reports it: a lower-case type letter and a colour. */
  datatype Piece = Piece(kind: char, color: Color)

  /** The six type letters the engine uses. */
  predicate IsKind(c: char) {
    c == 'p' || c == 'n' || c == 'b' || c == 'r' || c == 'q' || c == 'k'
  }

  /** A position: the piece on each occupied square. */
  type Position = map<string, Piece>

  function PieceOn(pos: Position, sq: string): Option<Piece> {
    if sq in pos then Some(pos[sq]) else None
  }

  /** `chess.board()`: eight rows from rank 8 down to rank 1, each from file a to file h. */
  function BoardOf(pos: Position): (b: seq<seq<Option<Piece>>>)
    ensures |b| == 8 && forall r :: 0 <= r < 8 ==> |b[r]| == 8
    ensures forall sq :: IsSquare(sq) ==> b[7 - RankOf(sq)][FileOf(sq)] == PieceOn(pos, sq)
  {
    var b := seq(8, r requires 0 <= r < 8 => seq(8, c requires 0 <= c < 8 => PieceOn(pos, SquareAt(r, c, false))));
    assert forall sq :: IsSquare(sq) ==> b[7 - RankOf(sq)][FileOf(sq)] == PieceOn(pos, sq) by {
      forall sq | IsSquare(sq)
        ensures b[7 - RankOf(sq)][FileOf(sq)] == PieceOn(pos, sq)
      {
        SquareAtCellOf(sq, false);
      }
    }
    b
  }

  /** The piece drawn in a cell is the piece on the square a press of that cell names,
      in both orientations. */
  lemma DisplayShowsPressedSquare(pos: Position, row: int, col: int, flipped: bool)
    requires OnBoard(row, col)
    ensures |Display(BoardOf(pos), flipped)| == 8
    ensures |Display(BoardOf(pos), flipped)[row]| == 8
    ensures Display(BoardOf(pos), flipped)[row][col] == PieceOn(pos, SquareAt(row, col, flipped))
  {
  }

  /** `isDark`: a cell is dark when its row and column sum to an odd number. */
  function IsDark(row: int, col: int): (dark: bool)
    ensures OnBoard(row, col) ==>
              (dark <==> (FileOf(SquareAt(row, col, false)) + RankOf(SquareAt(row, col, false))) % 2 == 0)
  {
    (row + col) % 2 == 1
  }

  /** The shading follows the square, not the cell: a1 and every square of the same
      colour as a1 are dark, whichever way the board is turned. */
  lemma DarkCellsAreDarkSquares(row: int, col: int, flipped: bool)
    requires OnBoard(row, col)
    ensures IsDark(row, col) <==>
              (FileOf(SquareAt(row, col, flipped)) + RankOf(SquareAt(row, col, flipped))) % 2 == 0
  {
  }

  /** `PIECES`: the glyph for each key; white pieces under upper-case letters, black pieces
      under lower-case letters. */
  const Glyphs: map<string, string> := map[
    "p" := "\U{265F}", "n" := "\U{265E}", "b" := "\U{265D}",
    "r" := "\U{265C}", "q" := "\U{265B}", "k" := "\U{265A}",
    "P" := "\U{2659}", "N" := "\U{2658}", "B" := "\U{2657}",
    "R" := "\U{2656}", "Q" := "\U{2655}", "K" := "\U{2654}"]

  /** `toUpperCase` on a single ASCII letter. */
  function Upper(c: char): char {
    if 'a' <= c <= 'z' then (c as int - 32) as char else c
  }

  /** The lookup key as written: the upper-case type letter, followed by the colour letter
      'b' for a black piece. */
  function GlyphKeyAsWritten(p: Piece): (key: string)
    ensures |key| >= 1 && key[0] == Upper(p.kind)
    ensures |key| == 2 <==> p.color == Black
    ensures p.color == Black ==> key == [Upper(p.kind), 'b']
  {
    [Upper(p.kind)] + (if p.color == White then "" else "b")
  }

  /** No black piece has a glyph under the key as written, so black pieces are drawn empty. */
  lemma BlackPiecesHaveNoGlyph(p: Piece)
    requires IsKind(p.kind) && p.color == Black
    ensures GlyphKeyAsWritten(p) !in Glyphs
  {
  }

  /** The intended key: upper-case for white, the type letter itself for black. */
  function GlyphKey(p: Piece): (key: string)
    ensures IsKind(p.kind) ==> key in Glyphs
  {
    if p.color == White then [Upper(p.kind)] else [p.kind]
  }

  /** The text drawn in a cell. */
  function CellGlyph(cell: Option<Piece>): (g: Option<string>)
    ensures cell.None? ==> g.None?
    ensures cell.Some? && IsKind(cell.value.kind) ==> g.Some?
  {
    match cell
    case None => None
    case Some(p) => if GlyphKey(p) in Glyphs then Some(Glyphs[GlyphKey(p)]) else None
  }

  /** The correction changes only black pieces: a white piece keeps the key as written, a
      black piece is looked up under its own lower-case type letter. */
  lemma CorrectionOnlyTouchesBlack(p: Piece)
    ensures p.color == White ==> GlyphKey(p) == GlyphKeyAsWritten(p)
    ensures p.color == Black ==> GlyphKey(p) == [p.kind]
  {
  }

  /** Under the intended key every piece has a glyph, and different pieces have different glyphs. */
  lemma GlyphsDistinguishPieces(p: Piece, q: Piece)
    requires IsKind(p.kind) && IsKind(q.kind)
    ensures CellGlyph(Some(p)).Some?
    ensures CellGlyph(Some(p)) == CellGlyph(Some(q)) ==> p == q
  {
  }

  /** What a press does: the new selection, and the `onMove(from, to)` call made, if any. */
  datatype PressResult = PressResult(selected: Option<string>, moved: Option<(string, string)>)

  /** `handleSquarePress`. With nothing selected, a press selects the pressed square when it
      holds a piece of the side to move. With a square selected, pressing it again clears
      the selection; pressing another square reports the move and clears the selection. */
  function HandlePress(selected: Option<string>, pos: Position, toMove: Color, flipped: bool,
                       row: int, col: int): (r: PressResult)
    requires OnBoard(row, col)
    ensures r.selected.Some? ==> selected.None? && r.selected.value == SquareAt(row, col, flipped)
    ensures selected.None? ==>
              r.moved.None?
              && (r.selected.Some? <==> PieceOn(pos, SquareAt(row, col, flipped)).Some?
                                        && PieceOn(pos, SquareAt(row, col, flipped)).value.color == toMove)
    ensures selected.Some? ==>
              r.selected.None?
              && (r.moved.Some? <==> selected.value != SquareAt(row, col, flipped))
              && (r.moved.Some? ==> r.moved.value == (selected.value, SquareAt(row, col, flipped)))
  {
    var square := SquareAt(row, col, flipped);
    if selected.Some? then
      if selected.value == square then PressResult(None, None)
      else PressResult(None, Some((selected.value, square)))
    else
      match PieceOn(pos, square)
      case Some(piece) =>
        assert piece.color.Black? || piece.color.White?;
        if (piece.color == White && toMove == White) || (piece.color == Black && toMove == Black)
        then PressResult(Some(square), None)
        else PressResult(None, None)
      case None => PressResult(None, None)
  }

  /** A selection, when there is one, is a square holding a piece of the side to move. */
  predicate SelectionSound(selected: Option<string>, pos: Position, toMove: Color) {
    selected.Some? ==> IsSquare(selected.value) && selected.value in pos && pos[selected.value].color == toMove
  }

  lemma PressKeepsSelectionSound(selected: Option<string>, pos: Position, toMove: Color,
                                 flipped: bool, row: int, col: int)
    requires OnBoard(row, col)
    requires SelectionSound(selected, pos, toMove)
    ensures SelectionSound(HandlePress(selected, pos, toMove, flipped, row, col).selected, pos, toMove)
  {
  }

  /** A press sequence select-then-press-elsewhere calls `onMove` once with the two squares. */
  lemma TwoPressesMove(pos: Position, toMove: Color, flipped: bool, r1: int, c1: int, r2: int, c2: int)
    requires OnBoard(r1, c1) && OnBoard(r2, c2) && (r1, c1) != (r2, c2)
    requires SquareAt(r1, c1, flipped) in pos && pos[SquareAt(r1, c1, flipped)].color == toMove
    ensures var first := HandlePress(None, pos, toMove, flipped, r1, c1);
            && first.moved.None?
            && HandlePress(first.selected, pos, toMove, flipped, r2, c2)
                 == PressResult(None, Some((SquareAt(r1, c1, flipped), SquareAt(r2, c2, flipped))))
  {
  }

  /** `isSelected`: the cell names the selected square. */
  function IsSelected(selected: Option<string>, flipped: bool, row: int, col: int): (lit: bool)
    requires OnBoard(row, col)
    ensures lit ==> selected.Some? && IsSquare(selected.value) && CellOf(selected.value, flipped) == (row, col)
  {
    CellOfSquareAt(row, col, flipped);
    selected.Some? && SquareAt(row, col, flipped) == selected.value
  }

  /** A selected square is highlighted in exactly one cell: the one where it is displayed. */
  lemma HighlightIsUnique(sq: string, flipped: bool, row: int, col: int)
    requires IsSquare(sq) && OnBoard(row, col)
    ensures IsSelected(Some(sq), flipped, row, col) <==> (row, col) == CellOf(sq, flipped)
  {
  }
}

=== FILE: common.dfy ===
/** Vocabulary shared by the server, the board component and the local game screen. */
module Common {

  /** A value that may be missing: an absent request field, an empty selection, a null result. */
  datatype Option<+T> = None | Some(value: T) {

    /** The value, or `default` when it is missing (JavaScript's destructuring default). */
    function GetOr(default: T): T {
      match this
      case Some(v) => v
      case None => default
    }
  }

  /** How a JavaScript condition reads a string field of a request body:
      a missing field and the empty string are both falsy. */
  predicate Truthy(field: Option<string>) {
    field.Some? && field.value != ""
  }

  /** The two sides of a chess game. */
  datatype Color = White | Black {

    function Opponent(): Color {
      if White? then Black else White
    }

    /** The spelling used in status texts and in the `turn` field of replies. */
    function Name(): string {
      if White? then "white" else "black"
    }
  }
}

=== FILE: fen_store.dfy ===
/** The single-slot FEN register of server/store/fenStore.ts and the two routes that use it. */
module FenStore {
  import opened Common
  import ChessEngine

  /** The module-level `currentFEN` variable. */
  datatype Register = Register(current: string)

  /** The register when the module is loaded: the standard starting position. */
  const Initial: Register := Register(ChessEngine.StartFen)

  /** `getFEN`. */
  function GetFen(r: Register): string {
    r.current
  }

  /** `setFEN`: overwrite with any string, without validation. */
  function SetFen(r: Register, fen: string): (r': Register)
    ensures GetFen(r') == fen
  {
    Register(fen)
  }

  /** The last of two writes wins, whatever the first one wrote. */
  lemma LastWriteWins(r: Register, a: string, b: string)
    ensures SetFen(SetFen(r, a), b) == SetFen(r, b)
  {
  }

  /** A fresh register holds the start position. */
  lemma InitialIsStartPosition()
    ensures GetFen(Initial) == "rnbqkbnr/pppppppp/8/8/8/8/PPPPPPPP/RNBQKBNR w KQkq - 0 1"
  {
  }

  /** The POST body of the SendInfo route: unparsable, or an object whose `fen` field may be
      missing. */
  datatype Body = Malformed | Posted(fen: Option<string>)

  /** The SendInfo reply: a fixed message, the posted `fen` field echoed back and the FEN
      after the update; or the 400 error for a bad body. */
  datatype PostReply = Accepted(message: string, data: Option<string>, currentFen: string) | InvalidRequest

  /** POST SendInfo: write the posted FEN only when it is truthy, and report the register. */
  function SendInfo(r: Register, body: Body): (res: (Register, PostReply))
    ensures body.Malformed? ==> res == (r, InvalidRequest)
    ensures body.Posted? && Truthy(body.fen) ==> GetFen(res.0) == body.fen.value
    ensures body.Posted? && !Truthy(body.fen) ==> res.0 == r
    ensures body.Posted? ==> res.1.Accepted? && res.1.message == "Player One data received"
    ensures res.1.Accepted? ==> res.1.data == body.fen && res.1.currentFen == GetFen(res.0)
  {
    match body
    case Malformed => (r, InvalidRequest)
    case Posted(fen) =>
      var r' := if Truthy(fen) then SetFen(r, fen.value) else r;
      (r', Accepted("Player One data received", fen, GetFen(r')))
  }

  /** GET GetInfo: a zero score and the register, leaving it as it was. */
  function GetInfo(r: Register): (int, string) {
    (0, GetFen(r))
  }

  /** A GetInfo after a SendInfo with a non-empty FEN reports that FEN. */
  lemma PostThenGet(r: Register, fen: string)
    requires fen != ""
    ensures GetInfo(SendInfo(r, Posted(Some(fen))).0).1 == fen
  {
  }

  /** A SendInfo with an empty or missing FEN leaves what GetInfo reports as it was. */
  lemma EmptyPostKeepsInfo(r: Register, fen: Option<string>)
    requires !Truthy(fen)
    ensures GetInfo(SendInfo(r, Posted(fen)).0) == GetInfo(r)
  {
  }
}

=== FILE: local_game.dfy ===
/** The single-device chess screen of app/chess.tsx: the status classification over the
    engine's flags, the move/undo/reset state updates and the move-list numbering. */
module LocalGame {
  import opened Common
  import opened ChessEngine
  import Numerals

  /** Why a drawn game is drawn, as the status text names it. */
  datatype DrawReason = Stalemate | ThreefoldRepetition | InsufficientMaterial | FiftyMoveRule

  /** What the status line says about the position. */
  datatype Verdict =
    | Mated(winner: Color)
    | Drawn(reason: DrawReason)
    | InCheck(side: Color)
    | ToMove(side: Color)

  /** The status line and the result banner after `checkGameStatus`. */
  datatype Status = Status(text: string, result: Option<string>)

  /** The screen's state: the engine (as its history) and the React state variables. */
  datatype Screen = Screen(
    plies: seq<Ply>,
    fen: string,
    history: seq<string>,
    currentTurn: Color,
    status: string,
    result: Option<string>)

  /** `checkGameStatus`. The winner of a checkmate is taken from the engine's side to move;
      the check and turn texts use the `currentTurn` state variable, which is passed as
      `shownTurn` because it can lag behind the engine. A result is set, never cleared. */
  function CheckGameStatus(f: Flags, sideToMove: Color, shownTurn: Color, result: Option<string>): (st: Status)
    ensures st.text == StatusText(Classify(f, sideToMove, shownTurn))
    ensures st.result == Banner(Classify(f, sideToMove, shownTurn), result)
    ensures st.result.Some? <==> result.Some? || f.isCheckmate || f.isDraw
    ensures !(f.isCheckmate || f.isDraw) ==> st.result == result
  {
    if f.isCheckmate then
      var winner := if sideToMove == White then Black else White;
      Status("Checkmate! " + winner.Name() + " wins", Some(winner.Name() + " won by checkmate"))
    else if f.isDraw then
      var text := "Game ended in draw";
      if f.isStalemate then
        Status(text + " (Stalemate)", Some("Draw by stalemate"))
      else if f.isThreefoldRepetition then
        Status(text + " (Threefold Repetition)", Some("Draw by threefold repetition"))
      else if f.isInsufficientMaterial then
        Status(text + " (Insufficient Material)", Some("Draw by insufficient material"))
      else
        Status(text + " (50-move rule)", Some("Draw by 50-move rule"))
    else if f.isCheck then
      Status(shownTurn.Name() + " is in check", result)
    else
      Status(shownTurn.Name() + "'s turn", result)
  }

  /** The verdict the flags call for: checkmate first, then a draw (its reason chosen in
      the order stalemate, repetition, material, with the fifty-move rule as the fallback),
      then check, then an ordinary turn. */
  function Classify(f: Flags, sideToMove: Color, shownTurn: Color): (v: Verdict)
    ensures v.Mated? <==> f.isCheckmate
    ensures v.Mated? ==> v.winner != sideToMove
    ensures v.Drawn? <==> !f.isCheckmate && f.isDraw
    ensures v.Drawn? ==>
              && (v.reason == Stalemate <==> f.isStalemate)
              && (v.reason == ThreefoldRepetition <==> !f.isStalemate && f.isThreefoldRepetition)
              && (v.reason == InsufficientMaterial <==>
                    !f.isStalemate && !f.isThreefoldRepetition && f.isInsufficientMaterial)
              && (v.reason == FiftyMoveRule <==>
                    !f.isStalemate && !f.isThreefoldRepetition && !f.isInsufficientMaterial)
    ensures v.InCheck? <==> !f.isCheckmate && !f.isDraw && f.isCheck
    ensures v.InCheck? ==> v.side == shownTurn
    ensures v.ToMove? ==> v.side == shownTurn
  {
    if f.isCheckmate then Mated(sideToMove.Opponent())
    else if f.isDraw then
      Drawn(if f.isStalemate then Stalemate
            else if f.isThreefoldRepetition then ThreefoldRepetition
            else if f.isInsufficientMaterial then InsufficientMaterial
            else FiftyMoveRule)
    else if f.isCheck then InCheck(shownTurn)
    else ToMove(shownTurn)
  }

  /** What `checkGameStatus` appends to "Game ended in draw" for each reason. */
  function DrawSuffix(r: DrawReason): string {
    match r
    case Stalemate => " (Stalemate)"
    case ThreefoldRepetition => " (Threefold Repetition)"
    case InsufficientMaterial => " (Insufficient Material)"
    case FiftyMoveRule => " (50-move rule)"
  }

  /** The status line of each verdict. */
  function StatusText(v: Verdict): string {
    match v
    case Mated(w) => "Checkmate! " + w.Name() + " wins"
    case Drawn(r) => "Game ended in draw" + DrawSuffix(r)
    case InCheck(c) => c.Name() + " is in check"
    case ToMove(c) => c.Name() + "'s turn"
  }

  /** The result banner text of each verdict; a check or an ordinary turn has none. */
  function ResultText(v: Verdict): (t: Option<string>)
    ensures t.Some? <==> v.Mated? || v.Drawn?
    ensures v.Drawn? ==> |t.value| > 8 && t.value[..8] == "Draw by "
  {
    match v
    case Mated(w) => Some(w.Name() + " won by checkmate")
    case Drawn(Stalemate) => Some("Draw by stalemate")
    case Drawn(ThreefoldRepetition) => Some("Draw by threefold repetition")
    case Drawn(InsufficientMaterial) => Some("Draw by insufficient material")
    case Drawn(FiftyMoveRule) => Some("Draw by 50-move rule")
    case InCheck(_) => None
    case ToMove(_) => None
  }

  /** The banner after `checkGameStatus` met verdict `v`: a new result replaces the banner,
      otherwise the one shown (if any) stays. */
  function Banner(v: Verdict, shown: Option<string>): Option<string> {
    if ResultText(v).Some? then ResultText(v) else shown
  }

  /** The colour whose name starts with `c`. */
  function ColorNamed(c: char): Color {
    if c == 'w' then White else Black
  }

  /** The only verdict whose status line could be `text`: the lines of different kinds
      have different lengths, and a colour is told by its name's first letter. Choosing the
      candidate by length leaves `DecodeStatus` a single string comparison, where matching
      the text against every verdict's line in turn would take ten. */
  function Candidate(text: string): Option<Verdict> {
    if |text| == 12 then Some(ToMove(ColorNamed(text[0])))
    else if |text| == 17 then Some(InCheck(ColorNamed(text[0])))
    else if |text| == 21 then Some(Mated(ColorNamed(text[11])))
    else if |text| == 30 then Some(Drawn(Stalemate))
    else if |text| == 41 then Some(Drawn(ThreefoldRepetition))
    else if |text| == 42 then Some(Drawn(InsufficientMaterial))
    else if |text| == 33 then Some(Drawn(FiftyMoveRule))
    else None
  }

  /** Reads a status line back into the verdict it states. */
  function DecodeStatus(text: string): (r: Option<Verdict>)
    ensures r.Some? ==> StatusText(r.value) == text
  {
    match Candidate(text)
    case Some(v) => if StatusText(v) == text then Some(v) else None
    case None => None
  }

  /** Every verdict has its own status line, so the line on screen identifies the verdict. */
  lemma DecodeStatusText(v: Verdict)
    ensures DecodeStatus(StatusText(v)) == Some(v)
  {
  }

  /** The status line shown after `checkGameStatus` names exactly the verdict of the flags. */
  lemma StatusIdentifiesVerdict(f: Flags, sideToMove: Color, shownTurn: Color, result: Option<string>)
    ensures DecodeStatus(CheckGameStatus(f, sideToMove, shownTurn, result).text)
              == Some(Classify(f, sideToMove, shownTurn))
  {
  }

  /** The screen as the component first renders it, before any effect. */
  const Fresh: Screen := Screen([], StartFen, [], White, "", None)

  /** The `useEffect` on `fen`: run `checkGameStatus` against the current state. */
  function Recheck(e: Engine, st: Screen): (r: Screen)
    ensures r.plies == st.plies && r.fen == st.fen && r.history == st.history
    ensures r.currentTurn == st.currentTurn
    ensures r.status == StatusText(Classify(FlagsOf(e, st.plies), Turn(st.plies), st.currentTurn))
    ensures r.result == Banner(Classify(FlagsOf(e, st.plies), Turn(st.plies), st.currentTurn), st.result)
  {
    var s := CheckGameStatus(FlagsOf(e, st.plies), Turn(st.plies), st.currentTurn, st.result);
    st.(status := s.text, result := s.result)
  }

  /** The screen after mounting: the effect has run once on the start position. */
  function Opened(e: Engine): (st: Screen)
    ensures st.plies == [] && st.history == [] && st.fen == StartFen && st.currentTurn == White
    ensures Synced(e, st)
    ensures st.status == "white's turn" && st.result == None
  {
    Recheck(e, Fresh)
  }

  /** The engine, the FEN, the listed history and the turn agree. */
  predicate Synced(e: Engine, st: Screen) {
    st.fen == Fen(e, st.plies) && st.history == San(st.plies) && st.currentTurn == Turn(st.plies)
  }

  /** The state updates shared by `handleMove` and `undoMove` once the engine holds history
      `h`: the direct `checkGameStatus()` call still sees the old `currentTurn`; the effect
      then re-runs it with the new one, but only when the FEN changed. */
  function Refresh(e: Engine, st: Screen, h: seq<Ply>): (r: Screen)
    ensures r.plies == h && Synced(e, r)
    ensures r.status == StatusText(Classify(FlagsOf(e, h), Turn(h),
                                            if r.fen != st.fen then Turn(h) else st.currentTurn))
    ensures r.result == Banner(Classify(FlagsOf(e, h), Turn(h), st.currentTurn), st.result)
    ensures st.result.Some? ==> r.result.Some?
  {
    var fen := Fen(e, h);
    var turn := Turn(h);
    var direct := CheckGameStatus(FlagsOf(e, h), turn, st.currentTurn, st.result);
    var st1 := Screen(h, fen, San(h), turn, direct.text, direct.result);
    if fen != st.fen then Recheck(e, st1) else st1
  }

  /** `handleMove`: ask the engine for the move (always promoting to a queen); update the
      screen only when the engine returns a move. */
  function HandleMove(e: Engine, st: Screen, from: string, to: string): (r: Screen)
    ensures !e.attempt(st.plies, MoveRequest(from, to, "q")).Applied? ==> r == st
    ensures e.attempt(st.plies, MoveRequest(from, to, "q")).Applied? ==>
              && r.plies == st.plies + [e.attempt(st.plies, MoveRequest(from, to, "q")).ply]
              && Synced(e, r)
              && r.status == StatusText(Classify(FlagsOf(e, r.plies), Turn(r.plies),
                                                 if r.fen != st.fen then r.currentTurn else st.currentTurn))
              && r.result == Banner(Classify(FlagsOf(e, r.plies), Turn(r.plies), st.currentTurn), st.result)
    ensures st.result.Some? ==> r.result.Some?
  {
    match e.attempt(st.plies, MoveRequest(from, to, "q"))
    case Applied(ply) => Refresh(e, st, st.plies + [ply])
    case Declined => st
    case Threw(_) => st
  }

  /** `undoMove`: take back the engine's last move; nothing changes when there is none. */
  function UndoMove(e: Engine, st: Screen): (r: Screen)
    ensures |st.plies| == 0 ==> r == st
    ensures |st.plies| > 0 ==>
              && r.plies + [st.plies[|st.plies| - 1]] == st.plies
              && Synced(e, r)
              && r.status == StatusText(Classify(FlagsOf(e, r.plies), Turn(r.plies),
                                                 if r.fen != st.fen then r.currentTurn else st.currentTurn))
              && r.result == Banner(Classify(FlagsOf(e, r.plies), Turn(r.plies), st.currentTurn), st.result)
    ensures st.result.Some? ==> r.result.Some?
  {
    match Undo(st.plies)
    case None => st
    case Some(h) => Refresh(e, st, h)
  }

  /** `resetGame`: back to the start position with the result banner cleared. */
  function ResetGame(e: Engine, st: Screen): (r: Screen)
    ensures r.plies == [] && r.history == [] && r.fen == StartFen
    ensures r.currentTurn == White && r.status == "white's turn" && r.result == None
    ensures Synced(e, r)
  {
    var st1 := Screen([], StartFen, [], White, "white's turn", None);
    if StartFen != st.fen then Recheck(e, st1) else st1
  }

  /** A move followed by an undo gives back the engine history, the FEN, the list and the turn. */
  lemma MoveThenUndo(e: Engine, st: Screen, from: string, to: string)
    requires Synced(e, st)
    requires e.attempt(st.plies, MoveRequest(from, to, "q")).Applied?
    ensures var r := UndoMove(e, HandleMove(e, st, from, to));
            r.plies == st.plies && r.fen == st.fen && r.history == st.history
            && r.currentTurn == st.currentTurn
  {
  }

  /** A mating move puts up the banner naming the player who made it, whatever it showed before. */
  lemma MatingMoveNamesMover(e: Engine, st: Screen, from: string, to: string)
    requires Synced(e, st)
    requires e.attempt(st.plies, MoveRequest(from, to, "q")).Applied?
    requires FlagsOf(e, HandleMove(e, st, from, to).plies).isCheckmate
    ensures HandleMove(e, st, from, to).result == Some(st.currentTurn.Name() + " won by checkmate")
  {
  }

  /** Taking a move back into a threefold repetition puts up that draw's banner. */
  lemma UndoIntoRepetitionShowsDraw(e: Engine, st: Screen)
    requires |st.plies| > 0
    requires var f := FlagsOf(e, st.plies[..|st.plies| - 1]);
             !f.isCheckmate && f.isDraw && !f.isStalemate && f.isThreefoldRepetition
    ensures UndoMove(e, st).result == Some("Draw by threefold repetition")
  {
  }

  /** The Undo button is enabled exactly when there is a move to take back. */
  predicate UndoEnabled(st: Screen) {
    |st.history| != 0
  }

  lemma UndoEnabledIffUndoable(e: Engine, st: Screen)
    requires Synced(e, st)
    ensures UndoEnabled(st) <==> UndoMove(e, st).plies != st.plies
  {
  }

  /** The prefix of the move-list entry at `index`: the full-move number and a dot on
      white's moves, nothing on black's. */
  function MoveLabel(index: nat): (prefix: string)
    ensures prefix != "" <==> index % 2 == 0
    ensures index % 2 == 0 ==>
              && |prefix| >= 2
              && prefix[0] != '0'
              && prefix[|prefix| - 1] == '.'
              && Numerals.AllDigits(prefix[..|prefix| - 1])
              && Numerals.Read(prefix[..|prefix| - 1]) == index / 2 + 1
  {
    if index % 2 == 0 then
      var number := Numerals.Show(index / 2 + 1);
      Numerals.ReadShow(index / 2 + 1);
      assert (number + ".")[..|number|] == number;
      number + "."
    else
      ""
  }

  /** The text of the move-list entry at `index`. */
  function HistoryLine(index: nat, san: string): (line: string)
    ensures index % 2 == 1 ==> line == " " + san
    ensures |line| == |MoveLabel(index)| + 1 + |san| && line[|line| - |san|..] == san
    ensures index % 2 == 0 ==> line[..|MoveLabel(index)|] == MoveLabel(index) && line[|MoveLabel(index)|] == ' '
  {
    MoveLabel(index) + " " + san
  }

  /** No two white moves of the list carry the same number. */
  lemma LabelsDistinct(i: nat, j: nat)
    requires i % 2 == 0 && j % 2 == 0 && i != j
    ensures MoveLabel(i) != MoveLabel(j)
  {
  }
}

=== FILE: numerals.dfy ===
/** Decimal numerals, as JavaScript prints a non-negative integer inside a template literal. */
module Numerals {

  predicate IsDigit(c: char) {
    '0' <= c <= '9'
  }

  predicate AllDigits(s: string) {
    forall i :: 0 <= i < |s| ==> IsDigit(s[i])
  }

  function DigitChar(d: int): (c: char)
    requires 0 <= d < 10
    ensures IsDigit(c)
  {
    ('0' as int + d) as char
  }

  /** The decimal spelling of `n`: only digits, never empty, no leading zero. */
  function Show(n: nat): (s: string)
    ensures |s| >= 1 && AllDigits(s)
    ensures s[0] == '0' ==> n == 0
    decreases n
  {
    if n < 10 then [DigitChar(n)] else Show(n / 10) + [DigitChar(n % 10)]
  }

  /** The value of a non-empty string of decimal digits. */
  function Read(s: string): nat
    requires |s| >= 1 && AllDigits(s)
    decreases |s|
  {
    var last := s[|s| - 1] as int - '0' as int;
    if |s| == 1 then last else Read(s[..|s| - 1]) * 10 + last
  }

  /** Reading a printed number gives the number back. */
  lemma {:induction false} ReadShow(n: nat)
    ensures Read(Show(n)) == n
    decreases n
  {
    if n >= 10 {
      var prefix := Show(n / 10);
      var s := prefix + [DigitChar(n % 10)];
      assert s[..|s| - 1] == prefix;
      ReadShow(n / 10);
    }
  }

  /** Different numbers print differently. */
  lemma ShowInjective(a: nat, b: nat)
    requires Show(a) == Show(b)
    ensures a == b
  {
    ReadShow(a);
    ReadShow(b);
  }
}

=== FILE: session_properties.dfy ===
/** Properties of the session relay that relate several requests, or a request and the
    store invariant. */
module SessionProperties {
  import opened Common
  import opened ChessEngine
  import opened SessionServer

  /** A first join with a fresh id inserts exactly one waiting game at the start position. */
  lemma JoinCreatesWaitingGame(s: Store, id: string, now: int)
    requires id != "" && id !in s
    ensures JoinGame(s, Some(id), now).store == s[id := Game([], StartFen, 1, now)]
    ensures JoinGame(s, Some(id), now).reply == Joined("waiting", StartFen, "Waiting for opponent", 1)
    ensures JoinGame(s, Some(id), now).announced == Some(1)
  {
  }

  /** A join of a game with a single player seats the second one and keeps the position. */
  lemma JoinAdmitsSecondPlayer(s: Store, id: string, now: int)
    requires id != "" && id in s && s[id].players < 2
    ensures JoinGame(s, Some(id), now).store == s[id := s[id].(players := 2, lastActive := now)]
    ensures JoinGame(s, Some(id), now).reply == Joined("ready", s[id].fen, "Game is ready", 2)
  {
  }

  /** A join of a full game is refused and changes nothing. */
  lemma JoinRefusesThirdPlayer(s: Store, id: string, now: int)
    requires id != "" && id in s && s[id].players >= 2
    ensures JoinGame(s, Some(id), now) == Outcome(s, Full, None)
  {
  }

  /** A socket that enters the room after a successful HTTP join is told the same player
      count that the join announced. */
  lemma JoinThenRoomAgree(s: Store, gameId: Option<string>, now: int)
    requires JoinGame(s, gameId, now).reply.Joined?
    ensures Truthy(gameId)
    ensures RoomAnnouncement(JoinGame(s, gameId, now).store, gameId.value) == JoinGame(s, gameId, now).announced
  {
  }

  /** The promotion default: a move posted without a promotion is handled exactly like
      one asking for a queen. */
  lemma AbsentPromotionIsQueen(e: Engine, s: Store, gameId: Option<string>, from: Option<string>,
                               to: Option<string>, now: int)
    ensures SubmitMove(e, s, gameId, from, to, None, now) == SubmitMove(e, s, gameId, from, to, Some("q"), now)
  {
  }

  /** A session idle for exactly one hour survives the sweep; one millisecond more expires it. */
  lemma ExpiredBoundary(g: Game)
    ensures !Expired(g, g.lastActive + 3600000)
    ensures Expired(g, g.lastActive + 3600001)
  {
  }

  /** Once expired, a session stays expired as time goes on. */
  lemma ExpiredStays(g: Game, t1: int, t2: int)
    requires t1 <= t2 && Expired(g, t1)
    ensures Expired(g, t2)
  {
  }

  /** Every handler and the sweep keep each session at one or two players, with its
      cached FEN equal to the engine's. */
  lemma JoinPreservesValid(e: Engine, s: Store, gameId: Option<string>, now: int)
    requires Valid(e, s)
    ensures Valid(e, JoinGame(s, gameId, now).store)
  {
  }

  lemma MovePreservesValid(e: Engine, s: Store, gameId: Option<string>, from: Option<string>,
                           to: Option<string>, promotion: Option<string>, now: int)
    requires Valid(e, s)
    ensures Valid(e, SubmitMove(e, s, gameId, from, to, promotion, now).store)
  {
  }

  lemma ResetPreservesValid(e: Engine, s: Store, gameId: Option<string>, now: int)
    requires Valid(e, s)
    ensures Valid(e, ResetGame(s, gameId, now).store)
  {
  }

  lemma UndoPreservesValid(e: Engine, s: Store, gameId: Option<string>, now: int)
    requires Valid(e, s)
    ensures Valid(e, UndoMove(e, s, gameId, now).store)
  {
  }

  /** A move followed by an undo gives back the game as it was, apart from its activity time. */
  lemma MoveThenUndoRestores(e: Engine, s: Store, gameId: Option<string>, from: Option<string>,
                             to: Option<string>, promotion: Option<string>, t1: int, t2: int)
    requires Valid(e, s)
    requires SubmitMove(e, s, gameId, from, to, promotion, t1).reply.Moved?
    ensures var o := UndoMove(e, SubmitMove(e, s, gameId, from, to, promotion, t1).store, gameId, t2);
            && o.store == s[gameId.value := s[gameId.value].(lastActive := t2)]
            && o.reply == Rewound(s[gameId.value].fen, San(s[gameId.value].history),
                                  TurnName(s[gameId.value].history))
  {
  }

  /** A status query changes nothing, so repeating it gives the same reply. */
  lemma QueryIsReadOnly(e: Engine, s: Store, gameId: string)
    ensures GetGame(e, GetGame(e, s, gameId).store, gameId) == GetGame(e, s, gameId)
  {
  }

  /** A sweep keeps every session valid. */
  lemma SweepPreservesValid(e: Engine, s: Store, now: int)
    requires Valid(e, s)
    ensures Valid(e, Sweep(s, now))
  {
  }

  /** Sweeping twice at the same time removes nothing more. */
  lemma SweepIdempotent(s: Store, now: int)
    ensures Sweep(Sweep(s, now), now) == Sweep(s, now)
  {
  }

  /** A later sweep subsumes an earlier one: idle time only grows. */
  lemma LaterSweepSubsumes(s: Store, t1: int, t2: int)
    requires t1 <= t2
    ensures Sweep(Sweep(s, t1), t2) == Sweep(s, t2)
  {
  }

  /** After the sweep, an expired game is unknown to every handler that looks it up. */
  lemma SweptGameIsNotFound(e: Engine, s: Store, id: string, now: int)
    requires id in s && Expired(s[id], now)
    ensures GetGame(e, Sweep(s, now), id).reply == NotFound
    ensures UndoMove(e, Sweep(s, now), Some(id), now).reply == (if id == "" then MissingId else NotFound)
  {
  }

  /** The requests a client can send. */
  datatype Request =
    | JoinReq(gameId: Option<string>)
    | StatusReq(id: string)
    | MoveReq(gameId: Option<string>, from: Option<string>, to: Option<string>, promotion: Option<string>)
    | ResetReq(gameId: Option<string>)
    | UndoReq(gameId: Option<string>)

  /** What the server reacts to: a request at a time, or a tick of the hourly timer. */
  datatype Event = Http(request: Request, at: int) | Tick(at: int)

  /** The store after one event. */
  function Apply(e: Engine, s: Store, ev: Event): Store {
    match ev
    case Tick(now) => Sweep(s, now)
    case Http(req, now) =>
      match req
      case JoinReq(id) => JoinGame(s, id, now).store
      case StatusReq(id) => GetGame(e, s, id).store
      case MoveReq(id, from, to, promotion) => SubmitMove(e, s, id, from, to, promotion, now).store
      case ResetReq(id) => ResetGame(s, id, now).store
      case UndoReq(id) => UndoMove(e, s, id, now).store
  }

  /** The store after a sequence of events, oldest first. */
  function Run(e: Engine, s: Store, evs: seq<Event>): Store
    decreases |evs|
  {
    if |evs| == 0 then s else Run(e, Apply(e, s, evs[0]), evs[1..])
  }

  lemma ApplyPreservesValid(e: Engine, s: Store, ev: Event)
    requires Valid(e, s)
    ensures Valid(e, Apply(e, s, ev))
  {
  }

  /** From any valid store (the empty map at start-up among them), no sequence of requests
      and sweeps ever seats a third player or lets a cached FEN drift from the engine's. */
  lemma {:induction false} RunPreservesValid(e: Engine, s: Store, evs: seq<Event>)
    requires Valid(e, s)
    ensures Valid(e, Run(e, s, evs))
    ensures forall id :: id in Run(e, s, evs) ==> 1 <= Run(e, s, evs)[id].players <= 2
    decreases |evs|
  {
    if |evs| > 0 {
      ApplyPreservesValid(e, s, evs[0]);
      RunPreservesValid(e, Apply(e, s, evs[0]), evs[1..]);
    }
  }

  /** Two joins of a fresh id: the first waits, the second is ready at the start position,
      and a move is refused in between. */
  lemma FreshGameScenario(e: Engine, now: int)
    ensures var o1 := JoinGame(map[], Some("g1"), now);
            && o1.reply == Joined("waiting", StartFen, "Waiting for opponent", 1)
            && SubmitMove(e, o1.store, Some("g1"), Some("e2"), Some("e4"), None, now).reply
                 == OpponentPending
            && JoinGame(o1.store, Some("g1"), now).reply
                 == Joined("ready", StartFen, "Game is ready", 2)
  {
  }
}

=== FILE: session_server.dfy ===
/** The multiplayer session relay of server.js: the in-memory `games` map, the five HTTP
    handlers and the hourly idle sweep.

    Each handler is a pure function from the store, the request fields and the current
    time (`Date.now()`, passed in as `now`) to the new store, the JSON reply and the
    player count announced on the game's push-channel room, if any. */
module SessionServer {
  import opened Common
  import opened ChessEngine

  /** One hour in milliseconds: the sweep period and the idle threshold. */
  const IdleLimit: int := 60 * 60 * 1000

  /** A session record: the engine (as its history), the cached FEN, the number of
      joined players and the time of the last successful mutation. */
  datatype Game = Game(history: seq<Ply>, fen: string, players: int, lastActive: int)

  /** The `games` map, keyed by game id. */
  type Store = map<string, Game>

  /** The JSON body of a reply. `Error` carries the HTTP status and the optional `message`
      (as `explanation`) and `details` keys; the other variants are 200 replies. */
  datatype Reply =
    | Error(code: int, error: string, explanation: Option<string>, details: Option<string>)
    | Joined(status: string, fen: string, message: string, playersConnected: int)
    | Snapshot(fen: string, playersConnected: int, status: string, history: seq<string>,
               turn: string, isCheck: bool, isCheckmate: bool, isDraw: bool, isGameOver: bool)
    | Moved(fen: string, history: seq<string>, turn: string,
            isCheck: bool, isCheckmate: bool, isDraw: bool, isGameOver: bool)
    | Rewound(fen: string, history: seq<string>, turn: string)

  /** The result of one request: the new store, the reply, and the `playersConnected`
      value emitted as `updatePlayers` to the game's room (None when nothing is emitted). */
  datatype Outcome = Outcome(store: Store, reply: Reply, announced: Option<int>)

  const MissingId: Reply := Error(400, "Game ID is required", None, None)
  const MissingFields: Reply := Error(400, "GameId, from, and to are required", None, None)
  const NotFound: Reply := Error(404, "Game not found", None, None)
  const Full: Reply := Error(400, "Game is full", Some("This game already has two players"), None)
  const OpponentPending: Reply := Error(400, "Waiting for opponent", None, None)
  const NothingToUndo: Reply := Error(400, "No move to undo", None, None)

  /** A session holds one or two players and caches the engine's FEN of its history. */
  predicate GameValid(e: Engine, g: Game) {
    1 <= g.players <= 2 && g.fen == Fen(e, g.history)
  }

  /** Every session of the store is valid. */
  predicate Valid(e: Engine, s: Store) {
    forall id :: id in s ==> GameValid(e, s[id])
  }

  /** `s` and `t` agree on key `id`: both lack it, or both map it to the same record. */
  predicate SameEntry(s: Store, t: Store, id: string) {
    (id in s <==> id in t) && (id in s ==> s[id] == t[id])
  }

  /** Going from `s` to `t` changed nothing but the entry for `id`. */
  ghost predicate OnlyTouches(s: Store, t: Store, id: string) {
    forall k :: k != id ==> SameEntry(s, t, k)
  }

  /** The four engine flags a snapshot or move reply carries agree with `f`. */
  predicate ReportsFlags(r: Reply, f: Flags)
    requires r.Snapshot? || r.Moved?
  {
    r.isCheck == f.isCheck && r.isCheckmate == f.isCheckmate
    && r.isDraw == f.isDraw && r.isGameOver == f.isGameOver
  }

  /** The `turn` field of a reply. */
  function TurnName(h: seq<Ply>): string {
    Turn(h).Name()
  }

  /** POST /api/joinGame: create the game on first join, admit a second player, refuse a third. */
  function JoinGame(s: Store, gameId: Option<string>, now: int): (o: Outcome)
    ensures !Truthy(gameId) ==> o == Outcome(s, MissingId, None)
    ensures o.reply.Error? <==> o.store == s
    ensures o.reply.Error? ==> o.announced == None
    ensures Truthy(gameId) ==> gameId.value in o.store && OnlyTouches(s, o.store, gameId.value)
    ensures Truthy(gameId) && gameId.value in s ==>
              o.store[gameId.value].history == s[gameId.value].history
              && o.store[gameId.value].fen == s[gameId.value].fen
    ensures o.reply.Joined? ==>
              && Truthy(gameId)
              && o.reply.fen == o.store[gameId.value].fen
              && o.reply.playersConnected == o.store[gameId.value].players
              && o.store[gameId.value].lastActive == now
              && (o.reply.status == "ready" <==> o.reply.playersConnected == 2)
              && o.announced == Some(o.reply.playersConnected)
  {
    if !Truthy(gameId) then
      Outcome(s, MissingId, None)
    else
      var id := gameId.value;
      if id !in s then
        var g := Game([], StartFen, 1, now);
        Outcome(s[id := g], Joined("waiting", StartFen, "Waiting for opponent", 1), Some(1))
      else if s[id].players < 2 then
        var g := s[id].(players := 2, lastActive := now);
        Outcome(s[id := g], Joined("ready", g.fen, "Game is ready", 2), Some(2))
      else
        Outcome(s, Full, None)
  }

  /** GET /api/game/:gameId: report the session without touching it. */
  function GetGame(e: Engine, s: Store, gameId: string): (o: Outcome)
    ensures o.store == s && o.announced == None
    ensures gameId !in s <==> o.reply == NotFound
    ensures gameId in s ==>
              && o.reply.Snapshot?
              && o.reply.fen == s[gameId].fen
              && o.reply.playersConnected == s[gameId].players
              && (o.reply.status == "ready" <==> s[gameId].players == 2)
              && (s[gameId].players != 2 ==> o.reply.status == "waiting")
              && o.reply.history == San(s[gameId].history)
              && o.reply.turn == Turn(s[gameId].history).Name()
              && ReportsFlags(o.reply, FlagsOf(e, s[gameId].history))
  {
    if gameId !in s then
      Outcome(s, NotFound, None)
    else
      var g := s[gameId];
      var f := FlagsOf(e, g.history);
      Outcome(s, Snapshot(g.fen, g.players, if g.players == 2 then "ready" else "waiting",
                          San(g.history), TurnName(g.history),
                          f.isCheck, f.isCheckmate, f.isDraw, f.isGameOver), None)
  }

  /** The request handed to the engine; a missing promotion defaults to a queen. */
  function RequestOf(from: string, to: string, promotion: Option<string>): MoveRequest {
    MoveRequest(from, to, promotion.GetOr("q"))
  }

  /** POST /api/move: relay a move to the engine once both players have joined. */
  function SubmitMove(e: Engine, s: Store, gameId: Option<string>, from: Option<string>,
                      to: Option<string>, promotion: Option<string>, now: int): (o: Outcome)
    ensures o.announced == None
    ensures o.reply.Error? ==> o.store == s
    ensures !(Truthy(gameId) && Truthy(from) && Truthy(to)) ==> o.reply == MissingFields
    ensures Truthy(gameId) && Truthy(from) && Truthy(to) && gameId.value !in s ==>
              o.reply == NotFound
    ensures (Truthy(gameId) && Truthy(from) && Truthy(to) && gameId.value in s
              && s[gameId.value].players < 2) ==> o.reply == OpponentPending
    ensures o.reply.Moved? <==>
              && Truthy(gameId) && Truthy(from) && Truthy(to)
              && gameId.value in s && s[gameId.value].players >= 2
              && e.attempt(s[gameId.value].history, RequestOf(from.value, to.value, promotion)).Applied?
    ensures o.reply.Moved? ==>
              var g := s[gameId.value];
              var ply := e.attempt(g.history, RequestOf(from.value, to.value, promotion)).ply;
              && OnlyTouches(s, o.store, gameId.value)
              && gameId.value in o.store
              && o.store[gameId.value].history == g.history + [ply]
              && o.store[gameId.value].fen == Fen(e, g.history + [ply])
              && o.store[gameId.value].players == g.players
              && o.store[gameId.value].lastActive == now
              && o.reply.fen == o.store[gameId.value].fen
              && o.reply.history == San(o.store[gameId.value].history)
              && o.reply.turn == Turn(g.history).Opponent().Name()
              && ReportsFlags(o.reply, FlagsOf(e, g.history + [ply]))
    ensures (!o.reply.Moved? && Truthy(gameId) && Truthy(from) && Truthy(to)
              && gameId.value in s && s[gameId.value].players >= 2) ==>
              o.reply.Error? && o.reply.code == 400 && o.reply.error == "Invalid move"
    ensures o.reply.Error? && o.reply.error == "Invalid move" ==>
              && Truthy(gameId) && Truthy(from) && Truthy(to) && gameId.value in s
              && ((o.reply.details.Some?) <==>
                    e.attempt(s[gameId.value].history, RequestOf(from.value, to.value, promotion)).Threw?)
    ensures o.reply.Error? && o.reply.error == "Invalid move" ==>
              var a := e.attempt(s[gameId.value].history, RequestOf(from.value, to.value, promotion));
              o.reply.explanation == None && (a.Threw? ==> o.reply.details == Some(a.message))
  {
    if !(Truthy(gameId) && Truthy(from) && Truthy(to)) then
      Outcome(s, MissingFields, None)
    else if gameId.value !in s then
      Outcome(s, NotFound, None)
    else
      var id := gameId.value;
      var g := s[id];
      if g.players < 2 then
        Outcome(s, OpponentPending, None)
      else
        match e.attempt(g.history, RequestOf(from.value, to.value, promotion))
        case Applied(ply) =>
          var h := g.history + [ply];
          var g' := g.(history := h, fen := Fen(e, h), lastActive := now);
          var f := FlagsOf(e, h);
          UndoAfterApply(g.history, ply);
          Outcome(s[id := g'],
                  Moved(g'.fen, San(h), TurnName(h), f.isCheck, f.isCheckmate, f.isDraw, f.isGameOver),
                  None)
        case Declined =>
          Outcome(s, Error(400, "Invalid move", None, None), None)
        case Threw(msg) =>
          Outcome(s, Error(400, "Invalid move", None, Some(msg)), None)
  }

  /** POST /api/reset: put an existing game back at the start position. */
  function ResetGame(s: Store, gameId: Option<string>, now: int): (o: Outcome)
    ensures o.announced == None
    ensures o.reply.Error? ==> o.store == s
    ensures !Truthy(gameId) ==> o.reply == MissingId
    ensures Truthy(gameId) && gameId.value !in s ==> o.reply == NotFound
    ensures o.reply.Rewound? <==> Truthy(gameId) && gameId.value in s
    ensures o.reply.Rewound? ==>
              && OnlyTouches(s, o.store, gameId.value)
              && gameId.value in o.store
              && o.store[gameId.value].history == []
              && o.store[gameId.value].fen == StartFen
              && o.store[gameId.value].players == s[gameId.value].players
              && o.store[gameId.value].lastActive == now
              && o.reply == Rewound(StartFen, [], "white")
  {
    if !Truthy(gameId) then
      Outcome(s, MissingId, None)
    else if gameId.value !in s then
      Outcome(s, NotFound, None)
    else
      var id := gameId.value;
      var g' := s[id].(history := [], fen := StartFen, lastActive := now);
      Outcome(s[id := g'], Rewound(g'.fen, San(g'.history), TurnName(g'.history)), None)
  }

  /** POST /api/undo: take back the last move of an existing game, whoever made it. */
  function UndoMove(e: Engine, s: Store, gameId: Option<string>, now: int): (o: Outcome)
    ensures o.announced == None
    ensures o.reply.Error? ==> o.store == s
    ensures !Truthy(gameId) ==> o.reply == MissingId
    ensures Truthy(gameId) && gameId.value !in s ==> o.reply == NotFound
    ensures Truthy(gameId) && gameId.value in s ==>
              (o.reply == NothingToUndo <==> |s[gameId.value].history| == 0)
    ensures o.reply.Rewound? <==> Truthy(gameId) && gameId.value in s && |s[gameId.value].history| > 0
    ensures o.reply.Rewound? ==>
              var h := s[gameId.value].history;
              && OnlyTouches(s, o.store, gameId.value)
              && gameId.value in o.store
              && o.store[gameId.value].history + [h[|h| - 1]] == h
              && o.store[gameId.value].fen == Fen(e, o.store[gameId.value].history)
              && o.store[gameId.value].players == s[gameId.value].players
              && o.store[gameId.value].lastActive == now
              && o.reply.fen == o.store[gameId.value].fen
              && o.reply.history == San(o.store[gameId.value].history)
              && o.reply.turn == Turn(h).Opponent().Name()
  {
    if !Truthy(gameId) then
      Outcome(s, MissingId, None)
    else if gameId.value !in s then
      Outcome(s, NotFound, None)
    else
      var id := gameId.value;
      var g := s[id];
      match Undo(g.history)
      case None =>
        Outcome(s, NothingToUndo, None)
      case Some(h) =>
        UndoAfterApply(h, g.history[|g.history| - 1]);
        var g' := g.(history := h, fen := Fen(e, h), lastActive := now);
        Outcome(s[id := g'], Rewound(g'.fen, San(h), TurnName(h)), None)
  }

  /** The socket `joinGame` event: the player count emitted to the room, if the game exists. */
  function RoomAnnouncement(s: Store, gameId: string): Option<int> {
    if gameId in s then Some(s[gameId].players) else None
  }

  /** A session untouched for more than an hour at time `now`. */
  predicate Expired(g: Game, now: int) {
    now - g.lastActive > IdleLimit
  }

  /** One run of the hourly sweep: the store without its expired sessions. */
  function Sweep(s: Store, now: int): (r: Store)
    ensures forall id :: id in r <==> id in s && !Expired(s[id], now)
    ensures forall id :: id in r ==> r[id] == s[id]
  {
    map id | id in s && !Expired(s[id], now) :: s[id]
  }

  /** The sweep as written: walk the entries, deleting each expired one from the live map. */
  method SweepEntries(s: Store, now: int) returns (r: Store)
    ensures r.Keys <= s.Keys
    ensures forall id :: id in s ==> (id in r <==> !Expired(s[id], now))
    ensures forall id :: id in r ==> r[id] == s[id]
    ensures r == Sweep(s, now)
  {
    r := s;
    var pending := s.Keys;
    while pending != {}
      invariant pending <= s.Keys
      invariant r.Keys <= s.Keys
      invariant forall id :: id in pending ==> id in r
      invariant forall id :: id in s && id !in pending ==> (id in r <==> !Expired(s[id], now))
      invariant forall id :: id in r ==> r[id] == s[id]
      decreases pending
    {
      var id :| id in pending;
      if Expired(r[id], now) {
        r := r - {id};
      }
      pending := pending - {id};
    }
  }
}
